=== FILE: README.md ===
# Crazy Snake Game — the snake simulation in Dafny

This project models the simulation inside the game page `src/Pages/Game.jsx`.
The snake moves on a 20-pixel grid. The apple and the potion are placed inside
a margin two cells deep. A game-loop tick moves the head, grows the snake on
the apple, pays 10 points (30 under the x3 multiplier) and shortens the loop
interval down to 100 ms. The game ends when the head leaves the board or lands
on the body. Around the loop sit three other pieces:
- the player's controls: arrow keys or on-screen buttons, and the space bar
  with its 200 ms cooldown or a tap on the board to pause;
- the potion cycle: a potion appears 15–20 s after it is scheduled and
  disappears 5–10 s later;
- the x3 multiplier that eating the potion turns on for 5 s, with its one-second
  announcements.

The whole game is one `Session.State` record. One transition function,
`Session.Step(state, event)`, drives it. Events are:
- the tick;
- each control;
- the firing of each timer: potion appearance, potion disappearance,
  multiplier deactivation, announcement hiding, and the end of the pause
  cooldown.

A timer is a pending flag: firing a timer that is not pending changes nothing.
Random draws are event arguments. `Placement.IndexDrawn` states exactly which
cell indices `floor(random * (effective / 20))` can produce.

The game's reactive effects are modelled as well. These are the multiplier
effect, the announcement effect, the potion-timer effects and the potion
watch. `Session.Render` runs each effect whose dependencies changed: first its
cleanup (cancelled timers), then its body, in the order the page declares them.
`Session.Settle` renders again when the first render changed a dependency.

Modules:
- `Wrappers`: `Option`.
- `Geometry`: positions, directions, the board, moves.
- `Placement`: item placement and the random initial snake.
- `Motion`: one tick of movement and the crash test.
- `Session`: state, events, handlers, effects, `Step`, the invariant, the start state.
- `SessionProps`: the invariant kept by every event and every run.
- `TickProps`: the tick.
- `ControlProps`: the controls.
- `PowerProps`: the potion and multiplier lifecycle.

Behaviour of the code worth knowing (the model follows the code in each case):

- The initial-direction filter (`src/Pages/Game.jsx:76-86`) checks room ahead
  of the head, in the direction of travel, but the body is laid out behind
  the head. So the two body segments can lie in the margin. They always lie on
  the board (`Placement.SpawnOnBoard`), and `Placement.SpawnBodyMayLeavePlayArea`
  gives a start where both are in the margin.
- Game over does not always leave the multiplier announcement hidden. When the
  multiplier was on, or was switched on by the same tick, the multiplier
  effect clears the message, but the announcement effect reacts to the
  multiplier it just switched off and shows "x3 Score is Inactive" again, with
  a hiding timer (`PowerProps.GameOverAnnouncesEnd`). Otherwise the crash hides
  the announcement (`PowerProps.CrashAnnouncement`).
- Apple and potion placement (`src/Pages/Game.jsx:102-136`) avoids neither
  the snake nor the other item, so the apple can land on the body or on the
  potion. `Placement.PlaceItem` follows the code: any grid cell of the play
  area can come out (`Placement.PlaceItemCovers`).
- The on-screen direction buttons have no pause check, so they steer a paused
  phone game.
- The space bar also toggles the pause after the game has ended.
- Two direction requests between ticks can reverse the snake onto its neck,
  because each request is checked against the previous request and not against
  the last move (`ControlProps.TwoTurnsReverse`).

## Model

| member | source | states |
|---|---|---|
| Geometry.Move | src/Pages/Game.jsx:371-385 | the new head is one grid cell away from the old one, in the direction of travel, and stays on the grid exactly when the old head was on it |
| Placement.PlaceItem | src/Pages/Game.jsx:102-118 | no apple exactly when the area inside the margin is empty; otherwise a grid-aligned cell inside [40, W-40) x [40, H-40) |
| Placement.PlaceItemCovers | src/Pages/Game.jsx:114-115 | every grid cell of the play area is a possible apple or potion cell |
| Placement.PlaceItemInjective | src/Pages/Game.jsx:114-115 | different draws of the random indices give different cells |
| Placement.Trail | src/Pages/Game.jsx:88-96 | the laid-out body has the requested length, segment i is i cells behind the head against the direction of travel, and consecutive segments are adjacent |
| Placement.SpawnSnake | src/Pages/Game.jsx:65-99 | the head is the drawn cell; with no fitting direction only the head is kept and the direction is undefined; otherwise the direction is one that passes the filter and the body has 3 segments trailing behind the head |
| Placement.SpawnShape | src/Pages/Game.jsx:88-96 | the spawned body has no gaps, and moving a segment one cell in the direction of travel gives the segment before it |
| Placement.SpawnCovers | src/Pages/Game.jsx:86 | every direction that passes the filter is one the random pick can choose |
| Placement.CellAligned | src/Pages/Game.jsx:114-115 | a drawn cell is a grid cell, whatever indices are drawn |
| Placement.SpawnAligned | src/Pages/Game.jsx:69-96 | every segment of the spawned snake is a grid cell, on any board |
| Placement.SpawnOnBoard | src/Pages/Game.jsx:69-96 | on a board with a non-empty play area the head lies in the play area and every segment lies on the board |
| Placement.FitDirectionsExact | src/Pages/Game.jsx:76-86 | a direction passes the filter exactly when the three cells from the head onwards in that direction all lie in the play area |
| Placement.SpawnHasDirection | src/Pages/Game.jsx:76-86 | a play area wider or higher than three cells always leaves a direction to pick |
| Placement.SpawnBodyMayLeavePlayArea | src/Pages/Game.jsx:76-96 | on the 1120 x 400 board, a head in the leftmost column travelling right has both body segments in the margin |
| Motion.Slither | src/Pages/Game.jsx:366-398 | the snake eats exactly when the new head is on the apple; the new head is one cell ahead; behind it is the whole old body after eating and the old body minus its tail otherwise; a body without gaps stays without gaps, and a body on the grid stays on the grid |
| Motion.HitsBody | src/Pages/Game.jsx:413-421 | the self-collision scan reports a hit exactly when some segment after the head sits on the head |
| Motion.CrashTest | src/Pages/Game.jsx:402-421 | the wall check and the self-collision scan together end the game exactly when the head is off the board or on a later segment |
| Session.AppearDelay | src/Pages/Game.jsx:489 | computed exactly, the appearance delay lies in [15000, 20000) ms |
| Session.DisappearDelay | src/Pages/Game.jsx:506 | computed exactly, the disappearance delay lies in [5000, 10000) ms |
| Session.PotionCollision | src/Pages/Game.jsx:546-553 | only the potion, the cycle flag and the power-up state change; nothing happens unless the head is on the potion; then the potion is gone and the cycle has started; in a running game the multiplier is on, announced and timed, and the next potion is scheduled |
| Session.ActivateX3Multiplier | src/Pages/Game.jsx:217-237 | while paused or over nothing happens; otherwise the multiplier is on and announced, its deactivation timer runs, the pending hiding timer is cancelled, and the potion timers and all other fields are kept |
| Session.PotionEaten | src/Pages/Game.jsx:519-523 | the potion is gone and its disappearance timer cancelled; the next appearance is scheduled exactly when the game runs or it was already scheduled; nothing else changes |
| Session.Turn | src/Pages/Game.jsx:294-311 | a direction request is taken exactly when it does not reverse the snake; a reversing request leaves the state unchanged; the result never reverses the snake, and nothing but the direction changes |
| Session.Handle | src/Pages/Game.jsx:282-351 | no handler changes the board or the control mode, reverses the snake, lowers the score or restarts a finished game |
| Session.Render | src/Pages/Game.jsx:173-543 | the reactive effects only write the multiplier, the announcement and the timers |
| Session.Settle | src/Pages/Game.jsx:173-263 | running the effects to their fixed point only writes the multiplier, the announcement and the timers |
| Session.Step | src/Pages/Game.jsx:354-428 | no event changes the board or control mode, reverses the snake, lowers the score or restarts a finished game |
| Session.StartPotionInterval | src/Pages/Game.jsx:486-499 | scheduling the next potion only touches the timers |
| Session.StartPotionDisappearTimer | src/Pages/Game.jsx:503-516 | starting the disappearance timer only touches the timers |
| Session.TickHandler | src/Pages/Game.jsx:365-425 | the game-loop body keeps the board, the control mode and the direction, never lowers the score, and changes nothing once the game has ended |
| Session.Cleanup | src/Pages/Game.jsx:208-542 | the cleanups of the effects that run again only cancel timers |
| Session.MultiplierEffect | src/Pages/Game.jsx:173-214 | the multiplier effect only writes the multiplier, the announcement and its timers |
| Session.AnnouncementEffect | src/Pages/Game.jsx:239-263 | the announcement effect only writes the announcement and its hiding timer |
| Session.PotionTimersEffect | src/Pages/Game.jsx:456-534 | the potion-timer effects only write the potion timers |
| Session.PotionWatchEffect | src/Pages/Game.jsx:536-543 | the potion watch only writes the disappearance timer |
| Session.RunEffects | src/Pages/Game.jsx:173-263 | the effect bodies together only write the multiplier, the announcement and the timers |
| Session.Init | src/Pages/Game.jsx:37-53 | a game exists exactly when some initial direction fits; it is running and satisfies the invariant, with score 0, interval 200, the spawned 3-segment snake and its direction, the placed apple, no potion, the cycle not started, no cooldown, the multiplier off and unannounced and only the potion appearance scheduled; its snake lies on the grid, and on a board with a play area also on the board |
| SessionProps.QuietSettle | src/Pages/Game.jsx:173-214 | when no effect dependency changed, the effects leave the state alone |
| SessionProps.SettleFixedPoint | src/Pages/Game.jsx:173-263 | after settling, one more render against the state the last render started from changes nothing: no effect has a changed dependency left |
| SessionProps.PausingRule | src/Pages/Game.jsx:184-189 | pausing a running game flips the pause, starts the cooldown for the space bar, hides the announcement and cancels every power-up timer, and keeps the multiplier and everything else |
| SessionProps.ResumingRule | src/Pages/Game.jsx:456-534 | resuming flips the pause, restarts the deactivation timer exactly when the multiplier is on, schedules the next potion, restarts the disappearance timer exactly when a potion is shown, cancels the hiding timer, and keeps everything else; the space bar also starts the cooldown |
| SessionProps.EndedToggleRule | src/Pages/Game.jsx:175-182 | a pause request after the game ended flips the pause, takes the announcement off the screen and cancels its hiding timer, and keeps everything else; the space bar also starts the cooldown |
| SessionProps.PotionAppearRule | src/Pages/Game.jsx:486-499 | the appearance timer places the drawn potion, clears itself and starts the disappearance timer exactly when a potion was placed; not pending, it changes nothing |
| SessionProps.PotionExpireRule | src/Pages/Game.jsx:503-516 | the disappearance timer removes the potion and schedules the next appearance; not pending, it changes nothing |
| SessionProps.MultiplierExpireRule | src/Pages/Game.jsx:226-236 | the deactivation timer turns the multiplier off and shows the announcement with its hiding timer; not pending, it changes nothing |
| SessionProps.TickHandlerShape | src/Pages/Game.jsx:365-425 | the game-loop body of a running game, field by field: new body, apple, score, interval, potion, cycle flag, power-up state and game-over flag |
| SessionProps.TickCrashPower | src/Pages/Game.jsx:175-182 | after a crash the multiplier is off and no potion or multiplier timer is pending; a shown announcement always has its hiding timer |
| SessionProps.StepKeepsInv | src/Pages/Game.jsx:354-428 | every event keeps the invariant: snake of at least 3 adjacent segments on grid cells, apple and potion on grid cells of the play area, interval in [100, 200] in steps of 10, score a non-negative multiple of 10, and the timers consistent with the pause, game-over and potion state |
| SessionProps.Run | src/Pages/Game.jsx:354-428 | every state reached by a run of events satisfies the invariant, on the same board |
| TickProps.TickIdleWhenStopped | src/Pages/Game.jsx:356-360 | a tick changes nothing while paused or after the game ended |
| TickProps.TickMovesSnake | src/Pages/Game.jsx:366-398 | the new head is the old head moved one cell in the current direction; behind it is the old body, whole after eating and minus its tail otherwise |
| TickProps.TickFood | src/Pages/Game.jsx:391-398 | on the apple: one segment longer, 30 points under the multiplier and 10 otherwise, interval max(interval-10, 100), a new apple; otherwise length, score, interval and apple are unchanged |
| TickProps.TickGameOver | src/Pages/Game.jsx:402-421 | the game ends exactly when the new head is off the board or on a later segment of the new body |
| TickProps.CrashKeepsScore | src/Pages/Game.jsx:391-421 | a tick that eats the apple and crashes into the body still keeps the points |
| TickProps.InitFirstTickSafe | src/Pages/Game.jsx:76-86 | on a board with a play area, the first tick of a freshly started game never ends it, whatever apple the snake meets: the filter leaves room ahead of the head and the body trails behind it |
| TickProps.StepProgress | src/Pages/Game.jsx:365-425 | no event lowers the score, raises the interval, shortens the snake, restarts a finished game or resets the potion cycle |
| TickProps.RunProgress | src/Pages/Game.jsx:391-398 | over any run the score never falls, the interval never grows and never drops below 100, the snake never shrinks, and the end is final |
| TickProps.StepAfterGameOver | src/Pages/Game.jsx:356-360 | after the game ended no event moves the snake, changes score, interval, apple or potion, or restarts the multiplier or the potion timers |
| TickProps.RunAfterGameOver | src/Pages/Game.jsx:356-360 | the same for every run of events after the game ended |
| ControlProps.ArrowKeyRule | src/Pages/Game.jsx:282-311 | arrow keys steer only the keyboard game and only while it is not paused; the request is taken exactly when it does not reverse the snake, and nothing else changes |
| ControlProps.DirButtonRule | src/Pages/Game.jsx:319-337 | on-screen buttons steer only the phone game, paused or not; the request is taken exactly when it does not reverse the snake, and nothing else changes |
| ControlProps.TwoTurnsReverse | src/Pages/Game.jsx:294-311 | moving right, "up" then "left" before the next tick put the head on the second segment and end the game |
| ControlProps.PauseIgnored | src/Pages/Game.jsx:282-293 | the space bar during the cooldown or in the phone game, and a tap in the keyboard game, change nothing |
| ControlProps.PauseRule | src/Pages/Game.jsx:346-351 | a pause toggle flips the pause; only the space bar starts the cooldown; pausing hides the announcement and stops every power-up timer but keeps the multiplier; resuming restarts the deactivation timer exactly when the multiplier is on, schedules the next potion, and restarts the disappearance timer exactly when a potion is shown |
| ControlProps.SpaceTwice | src/Pages/Game.jsx:274-293 | a space press toggles the pause and starts the cooldown, and a second press before the cooldown ends changes nothing |
| ControlProps.TapTwice | src/Pages/Game.jsx:346-351 | two taps give back the running game with the same multiplier, deactivation timer and disappearance timer; the announcement and its hiding timer are gone and the next potion is scheduled |
| ControlProps.CooldownOverRule | src/Pages/Game.jsx:274-279 | the end of the cooldown only re-enables the space bar |
| PowerProps.StoppedTimersIdle | src/Pages/Game.jsx:486-516 | no potion or multiplier timer fires while the game is paused or over |
| PowerProps.HideMessageRule | src/Pages/Game.jsx:253-261 | the hiding timer takes the announcement off the screen and changes nothing else |
| PowerProps.PotionEatenRule | src/Pages/Game.jsx:546-553 | a tick that reaches the potion without crashing removes it, turns on and announces the multiplier, starts its deactivation timer and schedules the next potion; the announcement gets a hiding timer exactly when the multiplier was off |
| PowerProps.PotionMissedRule | src/Pages/Game.jsx:546-553 | a tick that misses the potion and does not crash leaves the potion and the power-up state alone |
| PowerProps.GameOverAnnouncesEnd | src/Pages/Game.jsx:239-263 | a game that ends with the multiplier on turns it off and shows the "inactive" announcement with its hiding timer |
| PowerProps.CrashAnnouncement | src/Pages/Game.jsx:175-182 | after a crash the announcement is shown exactly when the multiplier was on or the same tick reached the potion; otherwise game over hides it |
| PowerProps.TickMultiplier | src/Pages/Game.jsx:217-237 | after a tick the multiplier is on exactly when the game goes on and the multiplier was on or the running snake reached the potion |
| PowerProps.MultiplierUntouched | src/Pages/Game.jsx:173-214 | events other than the tick and the deactivation timer never switch the multiplier |
| PowerProps.MultiplierEndsOnlyByExpiryOrGameOver | src/Pages/Game.jsx:173-237 | the multiplier goes off only when its timer fires or the game ends |
| PowerProps.MultiplierStartsOnlyByPotion | src/Pages/Game.jsx:546-553 | the multiplier comes on only on a running tick whose head reaches the potion |

## Left out

- Viewport resizing (`updateDimensions`): the board's width and height are parameters of the model and never change during a session.
- The stored control preference and its expiry (localStorage and the wall clock): the control mode is part of the state and never changes.
- Drawing with Konva, image loading, focus handling on the buttons, messages, navigation and page reload.
- Real time: timers carry no duration. `Session.AppearDelay` and `Session.DisappearDelay` state the drawn delays in exact arithmetic. The 200 ms cooldown, the 5000 ms multiplier and the 1000 ms announcement are named constants, but they are not compared with one another; any pending timer may fire at any time, and the model does not order the timer events by their delays (the potion may, for example, reappear before a shown potion would have expired, or the multiplier end before its announcement is hidden).
- Randomness: every random draw is an argument, constrained to the values the game's expression can produce. For the cell indices and the direction pick the result is an integer and the bounds are exact; the two potion delays are the exception below.
- Session.AppearDelay: computed over the reals, not in the game's 64-bit floating point. At the largest value `Math.random()` returns, 1 - 2^-53, the game's sum rounds to exactly 20000, which the strict upper bound excludes; `setTimeout` then also truncates the delay to whole milliseconds. The model promises `< 20000` only of the exact sum.
- Session.DisappearDelay: computed over the reals, not in 64-bit floating point. At 1 - 2^-53 the game's sum rounds to exactly 10000, which the strict upper bound excludes, and `setTimeout` truncates to whole milliseconds. The model promises `< 10000` only of the exact sum.
- The game with an undefined direction: when no direction fits the spawned head, the page keeps a one-segment snake whose direction is undefined. `Session.Init` returns no game in that case.
- A tick with no apple: the page reads the fields of a missing apple and fails. `Session.Ready` requires an apple for a running tick. With the invariant this holds on every board whose play area is not empty.
- React's batching of several state updates into one render, and values captured by closures from an older render. Each event is handled on the current state and rendered once, or twice when the first render changed the multiplier. The appearance timer sees the potion from before the event. The score update uses the current score.
- The game loop being restarted whenever one of its dependencies changes: this only affects timing.
- The two apples generated on mount (`src/Pages/Game.jsx:167-170` and `555-559`): both come from the same generator, and `Session.Init` uses one draw.
- Session.Render: its contract states only which fields the effects may write. What the effects do after each event is stated by the rule lemmas: `SessionProps.PotionAppearRule`, `SessionProps.MultiplierExpireRule`, `SessionProps.PausingRule`, `SessionProps.ResumingRule`, `SessionProps.EndedToggleRule`, `PowerProps.PotionEatenRule` and `PowerProps.GameOverAnnouncesEnd`.
- Session.Settle: same as `Session.Render`; the same rule lemmas state the result.
- Session.RunEffects: same as `Session.Render`.
- Session.Cleanup: its contract states only that no field outside the power-up state changes.
- Session.MultiplierEffect: its contract states only which fields it writes; `SessionProps.PausingRule`, `SessionProps.ResumingRule` and `SessionProps.TickCrashPower` state its effect.
- Session.AnnouncementEffect: its contract states only which fields it writes; `SessionProps.MultiplierExpireRule`, `PowerProps.PotionEatenRule` and `PowerProps.GameOverAnnouncesEnd` state its effect.
- Session.PotionTimersEffect: its contract states only which fields it writes; `SessionProps.ResumingRule` and `SessionProps.TickCrashPower` state its effect.
- Session.PotionWatchEffect: its contract states only which fields it writes; `SessionProps.PotionAppearRule` states its effect.
- Session.StartPotionInterval: its contract states only which fields it writes; the pending flag it sets is stated by `SessionProps.PotionExpireRule`, `SessionProps.ResumingRule` and `PowerProps.PotionEatenRule`.
- Session.StartPotionDisappearTimer: its contract states only which fields it writes; `SessionProps.PotionAppearRule` and `SessionProps.ResumingRule` state when it starts the timer.
- Session.Handle: its contract states what no handler does; the event-by-event behaviour is stated about `Session.Step` by the rule lemmas in `SessionProps`, `TickProps`, `ControlProps` and `PowerProps`.
- Session.Step: same as `Session.Handle`.
- Session.TickHandler: the same; `SessionProps.TickHandlerShape` states it field by field.

=== FILE: control_props.dfy ===
/**
 The player's controls: direction requests from the keyboard and from the
 on-screen buttons, pausing with the space bar (behind a cooldown) and with a
 tap on the board, and what pausing and resuming do to the power-up timers.
 */
module ControlProps {
  import opened Wrappers
  import opened Geometry
  import opened Placement
  import opened Session
  import opened SessionProps
  import opened TickProps

  /** A direction request took effect exactly when it did not reverse the snake, and nothing else changed. */
  predicate TurnedTo(s: State, t: State, d: Dir) {
    && (t.dir == d <==> d != Opposite(s.dir))
    && (t.dir != d ==> t.dir == s.dir)
    && t == s.(dir := t.dir)
  }

  /** Arrow keys steer only the keyboard game, and only while it is not paused. */
  lemma ArrowKeyRule(s: State, d: Dir)
    ensures var t := Step(s, ArrowKey(d));
      && (s.control == PC && !s.paused ==> TurnedTo(s, t, d))
      && (s.control == Phone || s.paused ==> t == s)
  {
    QuietSettle(s, Handle(s, ArrowKey(d)));
  }

  /** On-screen buttons steer only the phone game, and they do so even while it is paused. */
  lemma DirButtonRule(s: State, d: Dir)
    ensures var t := Step(s, DirButton(d));
      && (s.control == Phone ==> TurnedTo(s, t, d))
      && (s.control == PC ==> t == s)
  {
    QuietSettle(s, Handle(s, DirButton(d)));
  }

  /** A keyboard game moving right along row 100, its apple out of the way. */
  function HeadingRight(): State {
    State(
      board := Board(1120, 400), control := PC,
      snake := [Pos(100, 100), Pos(80, 100), Pos(60, 100)], dir := Right,
      apple := Some(Pos(400, 200)), potion := None,
      score := 0, speed := InitialSpeed,
      gameOver := false, paused := false, cooldown := false, potionStarted := false,
      power := Power(false, false, true, false, false, false))
  }

  /** The example game satisfies the invariant. */
  lemma HeadingRightInv()
    ensures Inv(HeadingRight())
  {
    var s := HeadingRight();
    assert Adjacent(s.snake[0], s.snake[1]) && Adjacent(s.snake[1], s.snake[2]);
  }

  /**
   Two direction requests between ticks can turn the snake back onto its own
   neck: each request is checked against the direction of the previous
   request, not against the last move. Moving right, "up" then "left" makes
   the next tick put the head on the second segment and end the game.
   */
  lemma TwoTurnsReverse()
    ensures Inv(HeadingRight())
    ensures Step(HeadingRight(), ArrowKey(Up)) == HeadingRight().(dir := Up)
    ensures Step(HeadingRight().(dir := Up), ArrowKey(Left)) == HeadingRight().(dir := Left)
    ensures var t := Step(HeadingRight().(dir := Left), Tick(Draw(0, 0)));
      && |t.snake| >= 2 && t.snake[0] == HeadingRight().snake[1]
      && t.gameOver
  {
    HeadingRightInv();
    var s := HeadingRight();
    ArrowKeyRule(s, Up);
    ArrowKeyRule(s.(dir := Up), Left);
    var s2 := s.(dir := Left);
    assert NextHead(s2) == Pos(80, 100);
    TickMovesSnake(s2, Draw(0, 0));
    TickGameOver(s2, Draw(0, 0));
    var t := Step(s2, Tick(Draw(0, 0)));
    assert t.snake[1..][0] == Pos(100, 100) && t.snake[1..][1] == Pos(80, 100);
  }

  /** A pause request that does not take effect changes nothing. */
  lemma PauseIgnored(s: State, e: Event)
    requires e.SpaceKey? || e.FieldTap?
    requires !Toggles(s, e)
    ensures Step(s, e) == s
  {
    QuietSettle(s, Handle(s, e));
  }

  /**
   Pausing a running game hides the announcement and stops every power-up
   timer, but keeps the multiplier; resuming restarts the deactivation timer
   exactly when the multiplier is on, schedules the next potion, and restarts
   the disappearance timer exactly when a potion is on the board. Only the
   space bar starts the cooldown.
   */
  lemma PauseRule(s: State, e: Event)
    requires Inv(s) && !s.gameOver && Toggles(s, e)
    ensures var t := Step(s, e);
      && t.paused == !s.paused
      && t.cooldown == (e.SpaceKey? || s.cooldown)
      && t == s.(paused := t.paused, cooldown := t.cooldown, power := t.power)
      && t.power.x3Active == s.power.x3Active
      && !t.power.showX3Message && !t.power.hidePending
      && (t.paused ==>
            !t.power.deactivatePending && !t.power.appearPending && !t.power.disappearPending)
      && (!t.paused ==>
            && (t.power.deactivatePending <==> s.power.x3Active)
            && t.power.appearPending
            && (t.power.disappearPending <==> s.potion.Some?))
  {
    if s.paused {
      ResumingRule(s, e);
    } else {
      PausingRule(s, e);
    }
  }

  /** The cooldown lets one space-bar toggle through: a second press before it ends changes nothing. */
  lemma SpaceTwice(s: State)
    requires s.control == PC && !s.cooldown
    ensures var t := Step(s, SpaceKey);
      && t.paused == !s.paused && t.cooldown
      && Step(t, SpaceKey) == t
  {
    assert Handle(s, SpaceKey) == Toggled(s, SpaceKey);
    var t := Step(s, SpaceKey);
    PauseIgnored(t, SpaceKey);
  }

  /**
   Two taps in the phone game give back the running game with the same
   multiplier and the same deactivation and disappearance timers. An
   announcement on screen is lost with its hiding timer, and the resume
   schedules the next potion even when one is already on the board.
   */
  lemma TapTwice(s: State)
    requires Inv(s) && s.control == Phone && s.Running()
    ensures var t := Step(Step(s, FieldTap), FieldTap);
      && t.paused == s.paused
      && t == s.(power := t.power)
      && t.power.x3Active == s.power.x3Active
      && t.power.deactivatePending == s.power.deactivatePending
      && t.power.disappearPending == s.power.disappearPending
      && !t.power.showX3Message && !t.power.hidePending
      && t.power.appearPending
  {
    PauseRule(s, FieldTap);
    StepKeepsInv(s, FieldTap);
    PauseRule(Step(s, FieldTap), FieldTap);
  }

  /** The cooldown timer only re-enables the space bar. */
  lemma CooldownOverRule(s: State)
    ensures Step(s, CooldownOver) == s.(cooldown := false)
  {
    QuietSettle(s, Handle(s, CooldownOver));
  }
}

=== FILE: geometry.dfy ===
/**
 Board geometry of the snake game: a board measured in pixels, cut into
 square cells of `Square` pixels, with a margin of `MarginCells` cells along
 every edge that entity placement keeps clear of. Collisions with the wall use
 the full board; placement uses the board eroded by the margin (the play area).
 */
module Geometry {

  /** Side of one grid cell, in pixels. */
  const Square: int := 20

  /** Cells kept free along every edge when entities are placed. */
  const MarginCells: int := 2

  /** The margin, in pixels. */
  const Margin: int := MarginCells * Square

  datatype Pos = Pos(x: int, y: int)

  datatype Dir = Up | Down | Left | Right

  /** Board dimensions in pixels; taken as given (the viewport sizing is not modelled). */
  datatype Board = Board(width: int, height: int)

  /** Width left for placement once the margin is removed on both sides. */
  function EffectiveWidth(b: Board): int {
    b.width - MarginCells * Square * 2
  }

  /** Height left for placement once the margin is removed on both sides. */
  function EffectiveHeight(b: Board): int {
    b.height - MarginCells * Square * 2
  }

  /** The play area is non-empty, so items can be placed at all. */
  predicate Playable(b: Board) {
    EffectiveWidth(b) > 0 && EffectiveHeight(b) > 0
  }

  /** Inside the full board: the complement of the wall test of the game loop. */
  predicate OnBoard(b: Board, p: Pos) {
    0 <= p.x < b.width && 0 <= p.y < b.height
  }

  /** Inside the board eroded by the margin. */
  predicate InPlayArea(b: Board, p: Pos) {
    Margin <= p.x < b.width - Margin && Margin <= p.y < b.height - Margin
  }

  /** On the grid of cells. */
  predicate Aligned(p: Pos) {
    p.x % Square == 0 && p.y % Square == 0
  }

  /** Where an item may be placed: a grid cell of the play area. */
  predicate Placed(b: Board, p: Pos) {
    InPlayArea(b, p) && Aligned(p)
  }

  /** Two cells one cell apart along exactly one axis. */
  predicate Adjacent(p: Pos, q: Pos) {
    || (p.x == q.x && (p.y - q.y == Square || q.y - p.y == Square))
    || (p.y == q.y && (p.x - q.x == Square || q.x - p.x == Square))
  }

  /** Every segment is adjacent to the one before it: no gaps, no diagonal steps. */
  predicate Contiguous(s: seq<Pos>) {
    forall i :: 0 < i < |s| ==> Adjacent(s[i - 1], s[i])
  }

  /** The reverse of a direction. */
  function Opposite(d: Dir): (r: Dir)
    ensures r != d
  {
    match d
    case Up => Down
    case Down => Up
    case Left => Right
    case Right => Left
  }

  /** The cell `k` steps from `p` in direction `d`, in screen coordinates (y grows downwards). */
  function Shift(p: Pos, d: Dir, k: int): Pos {
    match d
    case Up => Pos(p.x, p.y - k * Square)
    case Down => Pos(p.x, p.y + k * Square)
    case Left => Pos(p.x - k * Square, p.y)
    case Right => Pos(p.x + k * Square, p.y)
  }

  /** The head's move of one game-loop tick. */
  function Move(p: Pos, d: Dir): (q: Pos)
    ensures Adjacent(p, q)
    ensures q == Shift(p, d, 1)
    ensures Aligned(p) <==> Aligned(q)
  {
    match d
    case Up => p.(y := p.y - Square)
    case Down => p.(y := p.y + Square)
    case Left => p.(x := p.x - Square)
    case Right => p.(x := p.x + Square)
  }

  /** Moving and moving back is the identity, so reversing would put the head on its own neck. */
  lemma MoveBack(p: Pos, d: Dir)
    ensures Move(Move(p, d), Opposite(d)) == p
    ensures Opposite(Opposite(d)) == d
  {
  }

  /** One more step after `k` steps is `k + 1` steps. */
  lemma ShiftStep(p: Pos, d: Dir, k: int)
    ensures Shift(Move(p, d), d, k) == Shift(p, d, k + 1)
  {
  }
}

=== FILE: motion.dfy ===
/**
 The snake's movement in one game-loop tick: a new head one cell ahead, the
 tail dropped unless the apple was reached, and the terminal test against the
 wall and the body.
 */
module Motion {
  import opened Geometry

  /** The body after one tick, and whether the new head reached the apple. */
  datatype Advanced = Advanced(body: seq<Pos>, ate: bool)

  /**
   One tick of movement: the new head is put in front of the body, and the
   last segment is removed unless the head landed on the apple.
   */
  function Slither(snake: seq<Pos>, d: Dir, apple: Pos): (r: Advanced)
    requires |snake| >= 1
    ensures r.ate <==> Move(snake[0], d) == apple
    ensures |r.body| == |snake| + (if r.ate then 1 else 0)
    ensures r.body[0] == Move(snake[0], d)
    ensures r.ate ==> r.body[1..] == snake
    ensures !r.ate ==> r.body[1..] == snake[..|snake| - 1]
    ensures Contiguous(snake) ==> Contiguous(r.body)
    ensures (forall i :: 0 <= i < |snake| ==> Aligned(snake[i])) ==>
      forall i :: 0 <= i < |r.body| ==> Aligned(r.body[i])
  {
    var head := Move(snake[0], d);
    var grown := [head] + snake;
    if head == apple then Advanced(grown, true)
    else Advanced(grown[..|grown| - 1], false)
  }

  /** The terminal test: the head left the board, or it sits on a later segment. */
  predicate Crashed(b: Board, body: seq<Pos>)
    requires |body| >= 1
  {
    !OnBoard(b, body[0]) || body[0] in body[1..]
  }

  /** The self-collision scan: does any segment after the head sit on the head? */
  method HitsBody(body: seq<Pos>) returns (hit: bool)
    requires |body| >= 1
    ensures hit <==> exists j :: 1 <= j < |body| && body[j] == body[0]
    ensures hit <==> body[0] in body[1..]
  {
    hit := false;
    var i := 1;
    while i < |body|
      invariant 1 <= i <= |body|
      invariant hit <==> exists j :: 1 <= j < i && body[j] == body[0]
    {
      if body[i] == body[0] {
        hit := true;
      }
      i := i + 1;
    }
    assert hit <==> body[0] in body[1..] by {
      if body[0] in body[1..] {
        var k :| 0 <= k < |body[1..]| && body[1..][k] == body[0];
        assert body[k + 1] == body[0];
      }
    }
  }

  /**
   The terminal test as the game loop runs it: the wall check on the new head,
   then the self-collision scan.
   */
  method CrashTest(b: Board, body: seq<Pos>) returns (over: bool)
    requires |body| >= 1
    ensures over <==> Crashed(b, body)
  {
    var head := body[0];
    over := head.x < 0 || head.x >= b.width || head.y < 0 || head.y >= b.height;
    var hit := HitsBody(body);
    if hit {
      over := true;
    }
  }
}

=== FILE: placement.dfy ===
/**
 Entity placement: the random cell for an apple or a potion, and the random
 initial snake with a direction that passes the fit filter.

 The game draws a cell index as `floor(random * (effective / Square))` with
 `random` in [0, 1). Randomness is not modelled: the index is an argument, and
 `IndexDrawn` says exactly which indices that expression can produce.
 */
module Placement {
  import opened Wrappers
  import opened Geometry

  /** Segments of a freshly spawned snake. */
  const SpawnLength: nat := 3

  /**
   The values `floor(random * (effective / Square))` takes for `random` in [0, 1).
   For a positive `effective` these are the cells of the play area; otherwise
   the product lies in (effective / Square, 0] and its floor is at most 0.
   */
  predicate IndexDrawn(effective: int, i: int) {
    if effective > 0 then 0 <= i && i * Square < effective
    else i <= 0 && effective < (i + 1) * Square
  }

  /** A random draw of one cell: a column index and a row index. */
  datatype Draw = Draw(ix: int, iy: int)

  /** The draw is one the game's random expression can produce on board `b`. */
  predicate DrawFits(b: Board, d: Draw) {
    IndexDrawn(EffectiveWidth(b), d.ix) && IndexDrawn(EffectiveHeight(b), d.iy)
  }

  /** The pixel position of a drawn cell: index times cell size, plus the margin. */
  function CellAt(d: Draw): Pos {
    Pos(d.ix * Square + Margin, d.iy * Square + Margin)
  }

  /** A drawn cell is on the grid, whatever the indices. */
  lemma CellAligned(d: Draw)
    ensures Aligned(CellAt(d))
  {
    var col, row := d.ix + MarginCells, d.iy + MarginCells;
    assert CellAt(d) == Pos(col * Square, row * Square);
    assert (col * Square) / Square == col && (row * Square) / Square == row;
  }

  /**
   Apple and potion placement (the two generators are the same code). No draw
   is made when the play area is empty, so the draw only has to fit otherwise.
   */
  function PlaceItem(b: Board, d: Draw): (r: Option<Pos>)
    requires Playable(b) ==> DrawFits(b, d)
    ensures r.None? <==> !Playable(b)
    ensures r.Some? ==> Placed(b, r.value)
  {
    if EffectiveWidth(b) <= 0 || EffectiveHeight(b) <= 0 then None
    else Some(CellAt(d))
  }

  /** Every cell of the play area can come out of placement: the draw reaches all of it. */
  lemma PlaceItemCovers(b: Board, p: Pos)
    requires Playable(b) && Placed(b, p)
    ensures exists d :: DrawFits(b, d) && PlaceItem(b, d) == Some(p)
  {
    var d := Draw((p.x - Margin) / Square, (p.y - Margin) / Square);
    assert d.ix * Square == p.x - Margin;
    assert d.iy * Square == p.y - Margin;
    assert DrawFits(b, d) && PlaceItem(b, d) == Some(p);
  }

  /** Two different draws never give the same cell. */
  lemma PlaceItemInjective(b: Board, d1: Draw, d2: Draw)
    requires Playable(b) && DrawFits(b, d1) && DrawFits(b, d2)
    requires PlaceItem(b, d1) == PlaceItem(b, d2)
    ensures d1 == d2
  {
  }

  /**
   The directions whose three-cell stretch from the head, taken in the direction
   of travel, stays in the play area, listed in the order the game pushes them.
   */
  function FitDirections(b: Board, head: Pos): seq<Dir> {
    var reach := (SpawnLength - 1) * Square;
    (if head.y + reach < b.height - Margin then [Down] else [])
    + (if head.y - reach >= Margin then [Up] else [])
    + (if head.x + reach < b.width - Margin then [Right] else [])
    + (if head.x - reach >= Margin then [Left] else [])
  }

  /** A body of `n` segments starting at `head`, each one cell behind the previous one for a snake moving in `d`. */
  function Trail(head: Pos, d: Dir, n: nat): (body: seq<Pos>)
    ensures |body| == n
    ensures forall i :: 0 <= i < n ==> body[i] == Shift(head, Opposite(d), i)
    ensures Contiguous(body)
    decreases n
  {
    if n == 0 then []
    else
      var rest := Trail(Move(head, Opposite(d)), d, n - 1);
      forall i | 0 <= i < n - 1
        ensures rest[i] == Shift(head, Opposite(d), i + 1)
      {
        ShiftStep(head, Opposite(d), i);
      }
      [head] + rest
  }

  /** The spawned snake: a body and, when some direction fits, the direction of travel. */
  datatype Spawn = Spawn(body: seq<Pos>, dir: Option<Dir>)

  /** `pick` is one of the values `floor(random * count)` takes, for random in [0, 1). */
  predicate PickDrawn(count: nat, pick: int) {
    0 <= pick && (pick == 0 || pick < count)
  }

  /**
   The random initial snake: a head on a drawn cell, a direction picked among
   the fitting ones, and a body of `SpawnLength` segments laid out behind the
   head. With no fitting direction the game keeps only the head and an
   undefined direction.
   */
  function SpawnSnake(b: Board, head: Draw, pick: int): (r: Spawn)
    requires DrawFits(b, head)
    requires PickDrawn(|FitDirections(b, CellAt(head))|, pick)
    ensures |r.body| >= 1 && r.body[0] == CellAt(head)
    ensures r.dir.None? <==> |FitDirections(b, CellAt(head))| == 0
    ensures r.dir.None? ==> r.body == [CellAt(head)]
    ensures r.dir.Some? ==> r.dir.value in FitDirections(b, CellAt(head))
    ensures r.dir.Some? ==> |r.body| == SpawnLength
    ensures r.dir.Some? ==>
      forall i :: 0 <= i < |r.body| ==> r.body[i] == Shift(CellAt(head), Opposite(r.dir.value), i)
  {
    var h := CellAt(head);
    var dirs := FitDirections(b, h);
    if |dirs| == 0 then Spawn([h], None)
    else
      var d := dirs[pick];
      Spawn(Trail(h, d, SpawnLength), Some(d))
  }

  /** Every fitting direction can come out of the pick: the draw reaches all of them. */
  lemma SpawnCovers(b: Board, head: Draw, d: Dir)
    requires DrawFits(b, head) && d in FitDirections(b, CellAt(head))
    ensures exists pick :: PickDrawn(|FitDirections(b, CellAt(head))|, pick) && SpawnSnake(b, head, pick).dir == Some(d)
  {
    var dirs := FitDirections(b, CellAt(head));
    var k :| 0 <= k < |dirs| && dirs[k] == d;
    assert PickDrawn(|dirs|, k) && SpawnSnake(b, head, k).dir == Some(d);
  }

  /**
   Shape of the spawned snake: without gaps, and each segment one cell behind
   the previous one against the direction of travel.
   */
  lemma SpawnShape(b: Board, head: Draw, pick: int)
    requires DrawFits(b, head)
    requires PickDrawn(|FitDirections(b, CellAt(head))|, pick)
    ensures var r := SpawnSnake(b, head, pick);
      && Contiguous(r.body)
      && (r.dir.Some? ==> forall i :: 0 < i < |r.body| ==> Move(r.body[i], r.dir.value) == r.body[i - 1])
  {
    var r := SpawnSnake(b, head, pick);
    if r.dir.Some? {
      var d := r.dir.value;
      assert r.body == Trail(CellAt(head), d, SpawnLength);
      forall i | 0 < i < |r.body|
        ensures Move(r.body[i], d) == r.body[i - 1]
      {
        ShiftStep(CellAt(head), Opposite(d), i - 1);
        MoveBack(r.body[i - 1], Opposite(d));
      }
    }
  }

  /** Every segment of the spawned snake lies on the grid, whatever the board. */
  lemma SpawnAligned(b: Board, head: Draw, pick: int)
    requires DrawFits(b, head)
    requires PickDrawn(|FitDirections(b, CellAt(head))|, pick)
    ensures var r := SpawnSnake(b, head, pick);
      forall i :: 0 <= i < |r.body| ==> Aligned(r.body[i])
  {
    var r := SpawnSnake(b, head, pick);
    CellAligned(head);
    if r.dir.Some? {
      SpawnShape(b, head, pick);
      var d := r.dir.value;
      assert Move(r.body[1], d) == r.body[0];
      assert Move(r.body[2], d) == r.body[1];
    }
  }

  /**
   On a playable board the spawned head lies in the play area, and every
   segment lies on the board (the margin is two cells deep and the body
   reaches two cells behind the head).
   */
  lemma SpawnOnBoard(b: Board, head: Draw, pick: int)
    requires DrawFits(b, head)
    requires PickDrawn(|FitDirections(b, CellAt(head))|, pick)
    ensures var r := SpawnSnake(b, head, pick);
      Playable(b) ==>
        && Placed(b, r.body[0])
        && forall i :: 0 <= i < |r.body| ==> OnBoard(b, r.body[i])
  {
    if !Playable(b) {
      return;
    }
    var r := SpawnSnake(b, head, pick);
    var h := CellAt(head);
    assert Placed(b, h) by {
      assert PlaceItem(b, head) == Some(h);
    }
    if r.dir.Some? {
      var d := r.dir.value;
      assert r.body[1] == Shift(h, Opposite(d), 1);
      assert r.body[2] == Shift(h, Opposite(d), 2);
      assert OnBoard(b, r.body[1]) && OnBoard(b, r.body[2]);
    }
  }

  /**
   The fit filter, stated independently: a direction passes exactly when all
   `SpawnLength` cells from the head onwards in that direction lie in the play area.
   */
  lemma FitDirectionsExact(b: Board, head: Pos, d: Dir)
    requires InPlayArea(b, head)
    ensures d in FitDirections(b, head) <==>
      forall k :: 0 <= k < SpawnLength ==> InPlayArea(b, Shift(head, d, k))
  {
    var ahead := Shift(head, d, SpawnLength - 1);
    if d in FitDirections(b, head) {
      forall k | 0 <= k < SpawnLength
        ensures InPlayArea(b, Shift(head, d, k))
      {
      }
    } else {
      assert !InPlayArea(b, ahead);
    }
  }

  /** A play area more than three cells wide or high always leaves some direction to pick. */
  lemma SpawnHasDirection(b: Board, head: Draw)
    requires Playable(b) && DrawFits(b, head)
    requires EffectiveWidth(b) > SpawnLength * Square || EffectiveHeight(b) > SpawnLength * Square
    ensures |FitDirections(b, CellAt(head))| > 0
  {
    var h := CellAt(head);
    if EffectiveWidth(b) > SpawnLength * Square {
      if head.ix < 2 {
        assert h.x + (SpawnLength - 1) * Square < b.width - Margin;
        assert Right in FitDirections(b, h);
      } else {
        assert Left in FitDirections(b, h);
      }
    } else {
      if head.iy < 2 {
        assert h.y + (SpawnLength - 1) * Square < b.height - Margin;
        assert Down in FitDirections(b, h);
      } else {
        assert Up in FitDirections(b, h);
      }
    }
  }

  /**
   The fit filter looks ahead of the head, not behind it: on the default
   1120 x 400 board a head in the leftmost column may travel right, and its
   body then lies in the margin.
   */
  lemma SpawnBodyMayLeavePlayArea()
    ensures var b := Board(1120, 400);
            var r := SpawnSnake(b, Draw(0, 8), 2);
            && r.dir == Some(Right)
            && !InPlayArea(b, r.body[1]) && !InPlayArea(b, r.body[2])
  {
    var b := Board(1120, 400);
    var h := CellAt(Draw(0, 8));
    assert h == Pos(40, 200);
    assert FitDirections(b, h) == [Down, Up, Right];
  }
}

=== FILE: power_props.dfy ===
/**
 The power-up lifecycle: the potion appears on a timer and disappears on a
 timer unless the snake reaches it first; reaching it turns on the x3
 multiplier, which ends when its own timer fires or when the game ends, and
 every change of the multiplier is announced for a moment.
 */
module PowerProps {
  import opened Wrappers
  import opened Geometry
  import opened Placement
  import opened Session
  import opened SessionProps
  import opened TickProps
  import opened ControlProps

  /** No power-up timer fires while the game is paused or over. */
  lemma StoppedTimersIdle(s: State, e: Event)
    requires Inv(s) && !s.Running() && Ready(s, e)
    requires e.PotionAppear? || e.PotionExpire? || e.MultiplierExpire?
    ensures Step(s, e) == s
  {
    match e
    case PotionAppear(draw) => PotionAppearRule(s, draw);
    case PotionExpire => PotionExpireRule(s);
    case MultiplierExpire => MultiplierExpireRule(s);
  }

  /** The hiding timer takes the announcement off the screen and changes nothing else. */
  lemma HideMessageRule(s: State)
    ensures var t := Step(s, HideMessage);
      && (s.power.hidePending ==>
            t == s.(power := s.power.(showX3Message := false, hidePending := false)))
      && (!s.power.hidePending ==> t == s)
  {
    QuietSettle(s, Handle(s, HideMessage));
  }

  /**
   A running tick that puts the head on the potion, without crashing,
   removes the potion, turns the multiplier on and announces it, starts its
   deactivation timer and schedules the next potion. The announcement gets a
   hiding timer only when the multiplier was off; eaten again while on, the
   multiplier restarts its five seconds and the announcement stays until then.
   */
  lemma PotionEatenRule(s: State, draw: Draw)
    requires Inv(s) && s.Running() && Ready(s, Tick(draw))
    requires s.potion == Some(NextHead(s))
    requires !Step(s, Tick(draw)).gameOver
    ensures var t := Step(s, Tick(draw));
      && t.potion.None? && t.potionStarted
      && t.power.x3Active && t.power.showX3Message && t.power.deactivatePending
      && t.power.appearPending && !t.power.disappearPending
      && (t.power.hidePending <==> !s.power.x3Active)
  {
    TickHandlerShape(s, draw);
    var h := Handle(s, Tick(draw));
    if s.power.x3Active {
      assert Render(s, h) == h;
    } else {
      var r := Render(s, h);
      assert r.power.x3Active && r.power.hidePending;
    }
  }

  /** A tick that misses the potion and does not crash leaves the power-up state alone. */
  lemma PotionMissedRule(s: State, draw: Draw)
    requires Inv(s) && s.Running() && Ready(s, Tick(draw))
    requires s.potion != Some(NextHead(s))
    requires !Step(s, Tick(draw)).gameOver
    ensures var t := Step(s, Tick(draw));
      t.potion == s.potion && t.potionStarted == s.potionStarted && t.power == s.power
  {
    TickHandlerShape(s, draw);
    QuietSettle(s, Handle(s, Tick(draw)));
  }

  /**
   A game that ends with the multiplier on shows the "inactive" announcement,
   with its hiding timer: the multiplier effect clears the message, and the
   announcement effect, reacting to the multiplier it just turned off, shows
   it again.
   */
  lemma GameOverAnnouncesEnd(s: State, draw: Draw)
    requires Inv(s) && s.Running() && Ready(s, Tick(draw))
    requires s.power.x3Active
    requires Step(s, Tick(draw)).gameOver
    ensures var t := Step(s, Tick(draw));
      && !t.power.x3Active
      && t.power.showX3Message && t.power.hidePending
  {
    TickHandlerShape(s, draw);
    var h := Handle(s, Tick(draw));
    var first := Render(s, h);
    assert !first.power.x3Active;
    var second := Render(h, first);
    assert second.power.showX3Message && second.power.hidePending;
  }

  /**
   After a crash the announcement is on the screen exactly when the multiplier
   was on or was switched on by the same tick: otherwise the multiplier effect's
   game-over branch hides it, and nothing shows it again.
   */
  lemma CrashAnnouncement(s: State, draw: Draw)
    requires Inv(s) && s.Running() && Ready(s, Tick(draw))
    requires Step(s, Tick(draw)).gameOver
    ensures var t := Step(s, Tick(draw));
      t.power.showX3Message <==> s.power.x3Active || s.potion == Some(NextHead(s))
  {
    TickHandlerShape(s, draw);
    var h := Handle(s, Tick(draw));
    var first := Render(s, h);
    if first.power.x3Active != h.power.x3Active {
      var second := Render(h, first);
      assert second.power.showX3Message;
    }
  }

  /**
   The multiplier after a tick: on exactly when the game goes on and the
   multiplier was already on or the running snake reached the potion.
   */
  lemma TickMultiplier(s: State, draw: Draw)
    requires Inv(s) && Ready(s, Tick(draw))
    ensures var t := Step(s, Tick(draw));
      t.power.x3Active <==>
        !t.gameOver && (s.power.x3Active || (s.Running() && s.potion == Some(NextHead(s))))
  {
    if !s.Running() {
      TickIdleWhenStopped(s, draw);
    } else {
      TickHandlerShape(s, draw);
      var h := Handle(s, Tick(draw));
      if h.gameOver {
        TickCrashPower(s, h);
      } else if s.potion == Some(NextHead(s)) {
        PotionEatenRule(s, draw);
      } else {
        PotionMissedRule(s, draw);
      }
    }
  }

  /** Pausing and resuming keep the multiplier, also after the game ended. */
  lemma PauseKeepsMultiplier(s: State, e: Event)
    requires Inv(s) && (e.SpaceKey? || e.FieldTap?)
    ensures Step(s, e).power.x3Active == s.power.x3Active
  {
    if !Toggles(s, e) {
      PauseIgnored(s, e);
    } else if !s.gameOver {
      PauseRule(s, e);
    } else {
      EndedToggleRule(s, e);
    }
  }

  /** Events other than a tick and the multiplier's own timer never switch the multiplier. */
  lemma MultiplierUntouched(s: State, e: Event)
    requires Inv(s) && Ready(s, e)
    requires !e.Tick? && !e.MultiplierExpire?
    ensures Step(s, e).power.x3Active == s.power.x3Active
  {
    match e
    case PotionAppear(draw) => PotionAppearRule(s, draw);
    case PotionExpire => PotionExpireRule(s);
    case SpaceKey => PauseKeepsMultiplier(s, e);
    case FieldTap => PauseKeepsMultiplier(s, e);
    case ArrowKey(_) => QuietSettle(s, Handle(s, e));
    case DirButton(_) => QuietSettle(s, Handle(s, e));
    case CooldownOver => QuietSettle(s, Handle(s, e));
    case HideMessage => QuietSettle(s, Handle(s, e));
  }

  /** The multiplier is turned off only by its own timer or by the end of the game. */
  lemma MultiplierEndsOnlyByExpiryOrGameOver(s: State, e: Event)
    requires Inv(s) && Ready(s, e)
    requires s.power.x3Active && !Step(s, e).power.x3Active
    ensures e.MultiplierExpire? || Step(s, e).gameOver
  {
    if e.Tick? {
      TickMultiplier(s, e.appleDraw);
    } else if !e.MultiplierExpire? {
      MultiplierUntouched(s, e);
    }
  }

  /** The multiplier is turned on only by a running tick whose head reaches the potion. */
  lemma MultiplierStartsOnlyByPotion(s: State, e: Event)
    requires Inv(s) && Ready(s, e)
    requires !s.power.x3Active && Step(s, e).power.x3Active
    ensures e.Tick? && s.Running() && s.potion == Some(NextHead(s))
  {
    if e.Tick? {
      TickMultiplier(s, e.appleDraw);
    } else if e.MultiplierExpire? {
      MultiplierExpireRule(s);
    } else {
      MultiplierUntouched(s, e);
    }
  }
}

=== FILE: session.dfy ===
/**
 The game session as one state record and one transition function.

 Everything that happens to a running game is an `Event`: a game-loop tick, a
 key press or on-screen button, or the firing of one of the game's timers.
 Timers carry no duration here; a timer is either pending or not, and firing a
 timer that is not pending changes nothing. Random draws arrive as event
 arguments.

 An event first runs its handler (`Handle`), then the game's reactive effects
 run on the result (`Settle`): each effect whose dependencies changed cancels
 its own timers and runs again, in the order the game declares them.
 */
module Session {
  import opened Wrappers
  import opened Geometry
  import opened Placement
  import Motion

  /** Game-loop interval at the start, in milliseconds. */
  const InitialSpeed: int := 200
  /** The interval never drops below this. */
  const MinSpeed: int := 100
  /** Each apple shortens the interval by this much. */
  const SpeedStep: int := 10
  /** Points for an apple. */
  const AppleScore: int := 10
  /** Points for an apple while the x3 multiplier is active. */
  const BoostedAppleScore: int := 30
  /** Pause cooldown, in milliseconds. */
  const CooldownMs: int := 200
  /** Lifetime of the x3 multiplier, in milliseconds. */
  const MultiplierMs: int := 5000
  /** How long a multiplier announcement stays visible, in milliseconds. */
  const MessageMs: int := 1000

  /** The input surface the player chose: keyboard or on-screen controls. */
  datatype Control = PC | Phone

  /**
   The multiplier, its announcement, and the four timers of the power-up
   lifecycle: potion appearance, potion disappearance, multiplier
   deactivation, announcement hiding. These are the only fields the reactive
   effects write.
   */
  datatype Power = Power(
    x3Active: bool,
    showX3Message: bool,
    appearPending: bool,
    disappearPending: bool,
    deactivatePending: bool,
    hidePending: bool)

  datatype State = State(
    board: Board,
    control: Control,
    snake: seq<Pos>,
    dir: Dir,
    apple: Option<Pos>,
    potion: Option<Pos>,
    score: int,
    speed: int,
    gameOver: bool,
    paused: bool,
    cooldown: bool,
    potionStarted: bool,
    power: Power)
  {
    /** The game loop runs and timers may fire. */
    predicate Running() {
      !paused && !gameOver
    }
  }

  datatype Event =
    | Tick(appleDraw: Draw)          // game-loop interval; the draw places a new apple if one is eaten
    | ArrowKey(key: Dir)             // keyboard arrow
    | SpaceKey                       // keyboard space bar
    | DirButton(button: Dir)         // on-screen arrow button
    | FieldTap                       // click or tap on the board
    | CooldownOver                   // the pause cooldown timer fires, CooldownMs after the space press
    | PotionAppear(potionDraw: Draw) // the potion appearance timer fires, AppearDelay after it was scheduled
    | PotionExpire                   // the potion disappearance timer fires, DisappearDelay after it started
    | MultiplierExpire               // the multiplier deactivation timer fires, MultiplierMs after it started
    | HideMessage                    // the announcement hiding timer fires, MessageMs after it started

  /** The larger of two integers. */
  function Max(a: int, b: int): int {
    if a >= b then a else b
  }

  /** Points an apple is worth right now. */
  function ApplePoints(x3Active: bool): int {
    if x3Active then BoostedAppleScore else AppleScore
  }

  /** The appearance delay drawn from `u` in [0, 1), in milliseconds. */
  function AppearDelay(u: real): (ms: real)
    requires 0.0 <= u < 1.0
    ensures 15000.0 <= ms < 20000.0
  {
    u * 5000.0 + 15000.0
  }

  /** The disappearance delay drawn from `u` in [0, 1), in milliseconds. */
  function DisappearDelay(u: real): (ms: real)
    requires 0.0 <= u < 1.0
    ensures 5000.0 <= ms < 10000.0
  {
    u * 5000.0 + 5000.0
  }

  // ---------------------------------------------------------------------------
  // Timer helpers, each guarded the way the game guards it.

  /** Schedule the potion appearance, unless the game is paused or over. */
  function StartPotionInterval(s: State): (r: State)
    ensures Untouched(s, r)
  {
    if s.paused || s.gameOver then s else s.(power := s.power.(appearPending := true))
  }

  /**
   Schedule the potion disappearance, unless the game is paused or over or
   there is no potion; `seen` is the potion the calling code observed.
   */
  function StartPotionDisappearTimer(s: State, seen: Option<Pos>): (r: State)
    ensures Untouched(s, r)
  {
    if s.paused || s.gameOver || seen.None? then s else s.(power := s.power.(disappearPending := true))
  }

  /** Turn the x3 multiplier on and show its announcement, unless paused or over. */
  function ActivateX3Multiplier(s: State): (t: State)
    ensures s.paused || s.gameOver ==> t == s
    ensures !s.paused && !s.gameOver ==>
      && t.power.x3Active && t.power.showX3Message
      && t.power.deactivatePending && !t.power.hidePending
      && t.power.appearPending == s.power.appearPending
      && t.power.disappearPending == s.power.disappearPending
    ensures t == s.(power := t.power)
  {
    if s.paused || s.gameOver then s
    else s.(power := s.power.(x3Active := true, showX3Message := true, deactivatePending := true, hidePending := false))
  }

  /** The potion is gone: cancel its disappearance and schedule the next one. */
  function PotionEaten(s: State): (t: State)
    ensures t.potion.None? && !t.power.disappearPending
    ensures t.power.appearPending <==> s.Running() || s.power.appearPending
    ensures t == s.(potion := None, power := t.power)
    ensures t.power.x3Active == s.power.x3Active && t.power.showX3Message == s.power.showX3Message
    ensures t.power.deactivatePending == s.power.deactivatePending && t.power.hidePending == s.power.hidePending
  {
    StartPotionInterval(s.(potion := None, power := s.power.(disappearPending := false)))
  }

  /**
   The power-up state right after a running game ate the potion: multiplier on
   and announced, its deactivation scheduled, the next potion scheduled.
   */
  function Boosted(): Power {
    Power(x3Active := true, showX3Message := true, appearPending := true,
          disappearPending := false, deactivatePending := true, hidePending := false)
  }

  /** The head reached the potion: remove it, mark the cycle started, activate the multiplier. */
  function PotionCollision(s: State, head: Pos): (t: State)
    ensures t == s.(potion := t.potion, potionStarted := t.potionStarted, power := t.power)
    ensures s.potion != Some(head) ==> t == s
    ensures s.potion == Some(head) ==> t.potion.None? && t.potionStarted
    ensures s.potion == Some(head) && s.Running() ==> t.power == Boosted()
  {
    if s.potion == Some(head) then
      ActivateX3Multiplier(PotionEaten(s.(potion := None)).(potionStarted := true))
    else s
  }

  /** A direction request: refused only when it reverses the snake. */
  function Turn(s: State, d: Dir): (t: State)
    ensures t.dir == d <==> d != Opposite(s.dir)
    ensures t.dir != Opposite(s.dir)
    ensures d == Opposite(s.dir) ==> t == s
    ensures t == s.(dir := t.dir)
  {
    if d == Opposite(s.dir) then s else s.(dir := d)
  }

  // ---------------------------------------------------------------------------
  // Event handlers.

  /** What an event needs before it can be handled. */
  predicate Ready(s: State, e: Event) {
    match e
    case Tick(draw) =>
      && (s.Running() ==> s.apple.Some? && |s.snake| >= 1)
      && (Playable(s.board) ==> DrawFits(s.board, draw))
    case PotionAppear(draw) => Playable(s.board) ==> DrawFits(s.board, draw)
    case _ => true
  }

  /** The game-loop body: move, eat, meet the potion, then test for a crash. */
  function TickHandler(s: State, draw: Draw): (t: State)
    requires Ready(s, Tick(draw))
    ensures t.board == s.board && t.control == s.control && t.dir == s.dir
    ensures t.score >= s.score
    ensures s.gameOver ==> t == s
  {
    if !s.Running() then s
    else
      var moved := Motion.Slither(s.snake, s.dir, s.apple.value);
      var head := moved.body[0];
      var fed :=
        if moved.ate then
          s.(snake := moved.body,
             apple := PlaceItem(s.board, draw),
             score := s.score + ApplePoints(s.power.x3Active),
             speed := Max(s.speed - SpeedStep, MinSpeed))
        else s.(snake := moved.body);
      var met := PotionCollision(fed, head);
      if Motion.Crashed(s.board, moved.body) then met.(gameOver := true) else met
  }

  /** The direct effect of an event, before the reactive effects run. */
  function Handle(s: State, e: Event): (t: State)
    requires Ready(s, e)
    ensures t.board == s.board && t.control == s.control
    ensures t.dir != Opposite(s.dir)
    ensures t.score >= s.score
    ensures s.gameOver ==> t.gameOver
  {
    match e
    case Tick(draw) => TickHandler(s, draw)
    case ArrowKey(d) =>
      if s.control == Phone || s.paused then s else Turn(s, d)
    case SpaceKey =>
      if s.control == Phone || s.cooldown then s
      else s.(paused := !s.paused, cooldown := true)
    case DirButton(d) =>
      if s.control == Phone then Turn(s, d) else s
    case FieldTap =>
      if s.control == Phone then s.(paused := !s.paused) else s
    case CooldownOver =>
      s.(cooldown := false)
    case PotionAppear(draw) =>
      if !s.power.appearPending then s
      else
        var fired := s.(power := s.power.(appearPending := false));
        if fired.paused || fired.gameOver then fired
        else StartPotionDisappearTimer(fired.(potion := PlaceItem(s.board, draw)), s.potion)
    case PotionExpire =>
      if !s.power.disappearPending then s
      else
        var fired := s.(power := s.power.(disappearPending := false));
        if fired.paused || fired.gameOver then fired
        else StartPotionInterval(fired.(potion := None))
    case MultiplierExpire =>
      if !s.power.deactivatePending then s
      else s.(power := s.power.(deactivatePending := false, x3Active := false, showX3Message := true, hidePending := true))
    case HideMessage =>
      if !s.power.hidePending then s
      else s.(power := s.power.(hidePending := false, showX3Message := false))
  }

  // ---------------------------------------------------------------------------
  // Reactive effects.

  /** Effects only touch the multiplier, its announcement and the timers. */
  predicate Untouched(s: State, t: State) {
    && t.board == s.board && t.control == s.control && t.snake == s.snake && t.dir == s.dir
    && t.apple == s.apple && t.potion == s.potion && t.score == s.score && t.speed == s.speed
    && t.gameOver == s.gameOver && t.paused == s.paused && t.cooldown == s.cooldown
    && t.potionStarted == s.potionStarted
  }

  /** The multiplier effect: game over ends it, pausing hides it, resuming restarts its timer. */
  function MultiplierEffect(s: State): (r: State)
    ensures Untouched(s, r)
  {
    if s.gameOver then
      s.(power := s.power.(deactivatePending := false, hidePending := false, showX3Message := false, x3Active := false))
    else if s.paused then
      s.(power := s.power.(deactivatePending := false, hidePending := false, showX3Message := false))
    else if s.power.x3Active then
      s.(power := s.power.(deactivatePending := true))
    else s
  }

  /** The announcement effect: once the cycle has started, every multiplier change is shown for a moment. */
  function AnnouncementEffect(s: State): (r: State)
    ensures Untouched(s, r)
  {
    if !s.potionStarted then s
    else s.(power := s.power.(showX3Message := true, hidePending := true))
  }

  /** The two potion-timer effects on pause, resume and game over. */
  function PotionTimersEffect(s: State): (r: State)
    ensures Untouched(s, r)
  {
    var first :=
      if s.gameOver then s.(power := s.power.(appearPending := false, disappearPending := false))
      else if s.paused then s
      else if s.potion.None? then StartPotionInterval(s)
      else StartPotionDisappearTimer(s, s.potion);
    if !s.paused && !s.gameOver then StartPotionInterval(first) else first
  }

  /** The potion watch effect: a new potion gets its disappearance timer. */
  function PotionWatchEffect(s: State): (r: State)
    ensures Untouched(s, r)
  {
    if s.potion.Some? then StartPotionDisappearTimer(s, s.potion) else s
  }

  /** The cleanups of the effects that are about to run again: each cancels the timers it owns. */
  function Cleanup(cur: State, multiplier: bool, phase: bool, watch: bool): (r: State)
    ensures Untouched(cur, r)
  {
    cur.(power := cur.power.(
      deactivatePending := cur.power.deactivatePending && !multiplier,
      hidePending := cur.power.hidePending && !multiplier,
      appearPending := cur.power.appearPending && !phase,
      disappearPending := cur.power.disappearPending && !phase && !watch))
  }

  /** The bodies of the effects that run again, in declaration order. */
  function RunEffects(s: State, multiplier: bool, announcement: bool, phase: bool, watch: bool): (r: State)
    ensures Untouched(s, r)
  {
    var s1 := if multiplier then MultiplierEffect(s) else s;
    var s2 := if announcement then AnnouncementEffect(s1) else s1;
    var s3 := if phase then PotionTimersEffect(s2) else s2;
    if watch then PotionWatchEffect(s3) else s3
  }

  /**
   One render after the state changed from `prev` to `cur`: the effects whose
   dependencies changed cancel their timers, then run in declaration order.
   */
  function Render(prev: State, cur: State): (r: State)
    ensures Untouched(cur, r)
  {
    var phase := prev.paused != cur.paused || prev.gameOver != cur.gameOver;
    var multiplier := phase || prev.power.x3Active != cur.power.x3Active;
    var announcement := prev.power.x3Active != cur.power.x3Active || prev.potionStarted != cur.potionStarted;
    var watch := prev.potion != cur.potion;
    RunEffects(Cleanup(cur, multiplier, phase, watch), multiplier, announcement, phase, watch)
  }

  /**
   Run the effects until their dependencies stop changing. Only the game-over
   branch of the multiplier effect changes a dependency (it clears
   `x3Active`), so a second render always reaches the fixed point.
   */
  function Settle(before: State, after: State): (r: State)
    ensures Untouched(after, r)
  {
    var first := Render(before, after);
    if first.power.x3Active == after.power.x3Active then first else Render(after, first)
  }

  /** The session's transition function. */
  function Step(s: State, e: Event): (t: State)
    requires Ready(s, e)
    ensures t.board == s.board && t.control == s.control
    ensures t.dir != Opposite(s.dir)
    ensures t.score >= s.score
    ensures s.gameOver ==> t.gameOver
  {
    Settle(s, Handle(s, e))
  }

  // ---------------------------------------------------------------------------
  // Invariant and start state.

  /** What holds of every state a session can reach on a fixed board. */
  predicate Inv(s: State) {
    FieldInv(s) && PowerInv(s)
  }

  /** The snake, the items, the score and the speed. */
  predicate FieldInv(s: State) {
    && |s.snake| >= SpawnLength
    && Contiguous(s.snake)
    && (forall i :: 0 <= i < |s.snake| ==> Aligned(s.snake[i]))
    && (s.apple.Some? <==> Playable(s.board))
    && (s.apple.Some? ==> Placed(s.board, s.apple.value))
    && (s.potion.Some? ==> Placed(s.board, s.potion.value))
    && MinSpeed <= s.speed <= InitialSpeed && s.speed % SpeedStep == 0
    && s.score >= 0 && s.score % AppleScore == 0
  }

  /** The multiplier, its announcement and the timers, against the phase and the potion. */
  predicate PowerInv(s: State) {
    && (s.power.x3Active ==> s.potionStarted)
    && (s.power.showX3Message ==> s.potionStarted)
    && (s.power.hidePending ==> s.power.showX3Message)
    && (s.power.deactivatePending <==> s.power.x3Active && s.Running())
    && (s.gameOver ==> !s.power.x3Active)
    && (s.paused ==> !s.power.showX3Message)
    && (!s.Running() ==> !s.power.appearPending && !s.power.disappearPending)
    && (s.power.disappearPending ==> s.potion.Some?)
    && (s.Running() && Playable(s.board) && s.potion.None? ==> s.power.appearPending)
    && (s.Running() && s.potion.Some? ==> s.power.disappearPending)
  }

  /**
   The state after mounting the game: a spawned snake, an apple, the potion
   appearance scheduled, everything else at its initial value. No state exists
   when no direction fits the spawned head.
   */
  function Init(b: Board, control: Control, head: Draw, pick: int, apple: Draw): (r: Option<State>)
    requires DrawFits(b, head)
    requires PickDrawn(|FitDirections(b, CellAt(head))|, pick)
    requires Playable(b) ==> DrawFits(b, apple)
    ensures r.Some? <==> |FitDirections(b, CellAt(head))| > 0
    ensures r.Some? ==> Inv(r.value) && r.value.Running() && r.value.board == b
    ensures r.Some? ==> r.value.score == 0 && r.value.speed == InitialSpeed && |r.value.snake| == SpawnLength
    ensures r.Some? ==>
      var sp := SpawnSnake(b, head, pick);
      && r.value.snake == sp.body && Some(r.value.dir) == sp.dir
      && r.value.apple == PlaceItem(b, apple)
      && r.value.control == control
    ensures r.Some? ==>
      && r.value.potion.None? && !r.value.potionStarted && !r.value.cooldown
      && !r.value.power.x3Active && !r.value.power.showX3Message
      && !r.value.power.deactivatePending && !r.value.power.hidePending && !r.value.power.disappearPending
      && r.value.power.appearPending
    ensures r.Some? ==> forall i :: 0 <= i < |r.value.snake| ==> Aligned(r.value.snake[i])
    ensures r.Some? && Playable(b) ==>
      && Placed(b, r.value.snake[0])
      && forall i :: 0 <= i < |r.value.snake| ==> OnBoard(b, r.value.snake[i])
  {
    var spawn := SpawnSnake(b, head, pick);
    if spawn.dir.None? then None
    else
      SpawnShape(b, head, pick);
      SpawnAligned(b, head, pick);
      SpawnOnBoard(b, head, pick);
      Some(State(
        board := b, control := control,
        snake := spawn.body, dir := spawn.dir.value,
        apple := PlaceItem(b, apple), potion := None,
        score := 0, speed := InitialSpeed,
        gameOver := false, paused := false, cooldown := false,
        potionStarted := false,
        power := Power(
          x3Active := false, showX3Message := false,
          appearPending := true, disappearPending := false,
          deactivatePending := false, hidePending := false)))
  }
}

=== FILE: session_props.dfy ===
/**
 Properties of the session: the invariant every step keeps, what a tick does
 to the snake, the score and the speed, when the game ends, the direction and
 pause rules, and the potion and multiplier lifecycle.
 */
module SessionProps {
  import opened Wrappers
  import opened Geometry
  import opened Placement
  import Motion
  import opened Session

  // ---------------------------------------------------------------------------
  // Effects that have nothing to react to.

  /** A render in which no dependency changed runs no effect. */
  lemma QuietSettle(prev: State, cur: State)
    requires prev.paused == cur.paused && prev.gameOver == cur.gameOver
    requires prev.power.x3Active == cur.power.x3Active && prev.potionStarted == cur.potionStarted
    requires prev.potion == cur.potion
    ensures Settle(prev, cur) == cur
  {
    assert Render(prev, cur) == cur;
  }

  // ---------------------------------------------------------------------------
  // The invariant, event by event.

  lemma InputKeepsInv(s: State, e: Event)
    requires Inv(s)
    requires e.ArrowKey? || e.DirButton? || e.CooldownOver? || e.HideMessage?
    ensures Inv(Step(s, e))
  {
    var h := Handle(s, e);
    QuietSettle(s, h);
    if e.HideMessage? {
      assert h == s || h == s.(power := s.power.(hidePending := false, showX3Message := false));
    } else if e.CooldownOver? {
      assert h == s.(cooldown := false);
    } else {
      assert h == s.(dir := h.dir);
    }
  }

  /**
   Settling reaches a fixed point: rendering once more, against the state the
   last render started from, changes nothing.
   */
  lemma SettleFixedPoint(before: State, after: State)
    ensures var first := Render(before, after);
      var last := if first.power.x3Active == after.power.x3Active then after else first;
      Render(last, Settle(before, after)) == Settle(before, after)
  {
  }

  /** The pause requests that take effect: the space bar outside the cooldown, a tap in the phone game. */
  predicate Toggles(s: State, e: Event) {
    || (e.SpaceKey? && s.control == PC && !s.cooldown)
    || (e.FieldTap? && s.control == Phone)
  }

  /** The pause flag and the cooldown after a pause request that takes effect. */
  function Toggled(s: State, e: Event): State {
    s.(paused := !s.paused, cooldown := e.SpaceKey? || s.cooldown)
  }

  /** Pausing a running game hides the announcement and stops every power-up timer; the multiplier stays. */
  lemma PausingRule(s: State, e: Event)
    requires Inv(s) && Toggles(s, e) && s.Running()
    ensures Step(s, e) == Toggled(s, e).(power := s.power.(
      showX3Message := false, hidePending := false, deactivatePending := false,
      appearPending := false, disappearPending := false))
  {
    var h := Handle(s, e);
    assert h == Toggled(s, e);
    var c := Cleanup(h, true, true, false);
    assert Render(s, h) == MultiplierEffect(c);
  }

  /**
   Resuming restarts the multiplier's deactivation timer when it is on,
   schedules the next potion, and restarts the potion's disappearance timer
   when one is shown.
   */
  lemma ResumingRule(s: State, e: Event)
    requires Inv(s) && Toggles(s, e) && s.paused && !s.gameOver
    ensures Step(s, e) == Toggled(s, e).(power := s.power.(
      hidePending := false, deactivatePending := s.power.x3Active,
      appearPending := true, disappearPending := s.potion.Some?))
  {
    var h := Handle(s, e);
    assert h == Toggled(s, e);
    var c := Cleanup(h, true, true, false);
    assert Render(s, h) == PotionTimersEffect(MultiplierEffect(c));
  }

  /** A pause request after the game ended also takes the announcement off the screen. */
  lemma EndedToggleRule(s: State, e: Event)
    requires Inv(s) && Toggles(s, e) && s.gameOver
    ensures Step(s, e) == Toggled(s, e).(power := s.power.(showX3Message := false, hidePending := false))
  {
    var h := Handle(s, e);
    assert h == Toggled(s, e);
    var c := Cleanup(h, true, true, false);
    assert Render(s, h) == PotionTimersEffect(MultiplierEffect(c));
  }

  lemma PauseKeepsInv(s: State, e: Event)
    requires Inv(s)
    requires e.SpaceKey? || e.FieldTap?
    ensures Inv(Step(s, e))
  {
    if !Toggles(s, e) {
      QuietSettle(s, Handle(s, e));
    } else if s.gameOver {
      EndedToggleRule(s, e);
    } else if s.paused {
      ResumingRule(s, e);
    } else {
      PausingRule(s, e);
    }
  }

  /** The appearance timer places a potion and, if one was placed, starts its disappearance timer. */
  lemma PotionAppearRule(s: State, draw: Draw)
    requires Inv(s) && Ready(s, PotionAppear(draw))
    ensures var t := Step(s, PotionAppear(draw));
      && (s.power.appearPending ==>
            var p := PlaceItem(s.board, draw);
            t == s.(potion := p, power := s.power.(appearPending := false, disappearPending := p.Some?)))
      && (!s.power.appearPending ==> t == s)
  {
    var h := Handle(s, PotionAppear(draw));
    if s.power.appearPending {
      var p := PlaceItem(s.board, draw);
      var c := Render(s, h);
      if s.potion != p {
        assert c == PotionWatchEffect(h.(power := h.power.(disappearPending := false)));
      } else {
        assert c == h;
      }
    } else {
      QuietSettle(s, h);
    }
  }

  lemma PotionAppearKeepsInv(s: State, draw: Draw)
    requires Inv(s) && Ready(s, PotionAppear(draw))
    ensures Inv(Step(s, PotionAppear(draw)))
  {
    PotionAppearRule(s, draw);
  }

  /** The disappearance timer removes the potion and schedules the next appearance. */
  lemma PotionExpireRule(s: State)
    requires Inv(s)
    ensures var t := Step(s, PotionExpire);
      && (s.power.disappearPending ==>
            t == s.(potion := None, power := s.power.(disappearPending := false, appearPending := true)))
      && (!s.power.disappearPending ==> t == s)
  {
    var h := Handle(s, PotionExpire);
    if s.power.disappearPending {
      assert Render(s, h) == h;
    } else {
      QuietSettle(s, h);
    }
  }

  lemma PotionExpireKeepsInv(s: State)
    requires Inv(s)
    ensures Inv(Step(s, PotionExpire))
  {
    PotionExpireRule(s);
  }

  /** The deactivation timer ends the multiplier and announces it for a moment. */
  lemma MultiplierExpireRule(s: State)
    requires Inv(s)
    ensures var t := Step(s, MultiplierExpire);
      && (s.power.deactivatePending ==>
            t == s.(power := s.power.(x3Active := false, deactivatePending := false,
                                      showX3Message := true, hidePending := true)))
      && (!s.power.deactivatePending ==> t == s)
  {
    var h := Handle(s, MultiplierExpire);
    if s.power.deactivatePending {
      var r := Render(s, h);
      assert r == AnnouncementEffect(MultiplierEffect(h.(power := h.power.(deactivatePending := false, hidePending := false))));
    } else {
      QuietSettle(s, h);
    }
  }

  lemma MultiplierExpireKeepsInv(s: State)
    requires Inv(s)
    ensures Inv(Step(s, MultiplierExpire))
  {
    MultiplierExpireRule(s);
  }

  /** The game-loop handler on a running game, field by field. */
  lemma TickHandlerShape(s: State, draw: Draw)
    requires s.Running() && Ready(s, Tick(draw))
    ensures var moved := Motion.Slither(s.snake, s.dir, s.apple.value);
      var head := moved.body[0];
      var meets := s.potion == Some(head);
      var h := Handle(s, Tick(draw));
      && h.board == s.board && h.control == s.control && h.dir == s.dir
      && h.snake == moved.body
      && h.apple == (if moved.ate then PlaceItem(s.board, draw) else s.apple)
      && h.score == s.score + (if moved.ate then ApplePoints(s.power.x3Active) else 0)
      && h.speed == (if moved.ate then Max(s.speed - SpeedStep, MinSpeed) else s.speed)
      && h.paused == s.paused && h.cooldown == s.cooldown
      && h.gameOver == Motion.Crashed(s.board, moved.body)
      && h.potion == (if meets then None else s.potion)
      && h.potionStarted == (meets || s.potionStarted)
      && h.power == (if meets then Boosted() else s.power)
  {
  }

  lemma TickKeepsInv(s: State, draw: Draw)
    requires Inv(s) && Ready(s, Tick(draw))
    ensures Inv(Step(s, Tick(draw)))
  {
    var h := Handle(s, Tick(draw));
    if !s.Running() {
      QuietSettle(s, h);
      return;
    }
    TickHandlerShape(s, draw);
    TickKeepsFieldInv(s, draw);
    var moved := Motion.Slither(s.snake, s.dir, s.apple.value);
    var meets := s.potion == Some(moved.body[0]);
    var t := Step(s, Tick(draw));
    if h.gameOver {
      TickCrashPower(s, h);
    } else if meets {
      var r := Render(s, h);
      assert r.power.x3Active;
      assert t == r;
    } else {
      QuietSettle(s, h);
    }
  }

  lemma TickKeepsFieldInv(s: State, draw: Draw)
    requires Inv(s) && s.Running() && Ready(s, Tick(draw))
    ensures FieldInv(Step(s, Tick(draw)))
  {
    TickHandlerShape(s, draw);
    var h := Handle(s, Tick(draw));
    var t := Step(s, Tick(draw));
    var moved := Motion.Slither(s.snake, s.dir, s.apple.value);
    assert h.snake == moved.body;
    assert t.snake == h.snake && t.apple == h.apple && t.potion == h.potion;
    assert t.score == h.score && t.speed == h.speed && t.board == s.board;
  }

  /** After a crash the multiplier is off and no potion or multiplier timer is left. */
  lemma TickCrashPower(s: State, h: State)
    requires s.Running() && h.gameOver && !h.paused
    requires h.power.x3Active ==> h.potionStarted
    ensures var t := Settle(s, h);
      && !t.power.x3Active && !t.power.deactivatePending
      && !t.power.appearPending && !t.power.disappearPending
      && (t.power.showX3Message <==> t.power.hidePending)
      && (t.power.showX3Message ==> h.potionStarted)
  {
    var first := Render(s, h);
    assert !first.power.x3Active && !first.power.deactivatePending;
    assert first.power.showX3Message <==> first.power.hidePending;
    if first.power.x3Active != h.power.x3Active {
      var second := Render(h, first);
      assert !second.power.x3Active;
    }
  }

  /** Every step keeps the invariant. */
  lemma StepKeepsInv(s: State, e: Event)
    requires Inv(s) && Ready(s, e)
    ensures Inv(Step(s, e))
  {
    match e
    case Tick(draw) => TickKeepsInv(s, draw);
    case PotionAppear(draw) => PotionAppearKeepsInv(s, draw);
    case PotionExpire => PotionExpireKeepsInv(s);
    case MultiplierExpire => MultiplierExpireKeepsInv(s);
    case SpaceKey => PauseKeepsInv(s, e);
    case FieldTap => PauseKeepsInv(s, e);
    case _ => InputKeepsInv(s, e);
  }

  // ---------------------------------------------------------------------------
  // Runs of events.

  /** The random draws an event carries are ones the game can make on board `b`. */
  predicate EventFits(b: Board, e: Event) {
    match e
    case Tick(draw) => Playable(b) ==> DrawFits(b, draw)
    case PotionAppear(draw) => Playable(b) ==> DrawFits(b, draw)
    case _ => true
  }

  /** On a playable board, a state satisfying the invariant is ready for every fitting event. */
  lemma InvReady(s: State, e: Event)
    requires Inv(s) && Playable(s.board) && EventFits(s.board, e)
    ensures Ready(s, e)
  {
  }

  /** The state after a whole run of events; every state on the way satisfies the invariant. */
  function Run(s: State, es: seq<Event>): (t: State)
    requires Inv(s) && Playable(s.board)
    requires forall i :: 0 <= i < |es| ==> EventFits(s.board, es[i])
    ensures Inv(t) && t.board == s.board
    decreases |es|
  {
    if |es| == 0 then s
    else
      InvReady(s, es[0]);
      StepKeepsInv(s, es[0]);
      Run(Step(s, es[0]), es[1..])
  }
}

=== FILE: tick_props.dfy ===
/**
 What one game-loop tick does: the head moves one cell, the body follows or
 grows, the apple pays 10 or 30 points and speeds the loop up to a floor, and
 the game ends exactly when the head leaves the board or lands on the body.
 */
module TickProps {
  import opened Geometry
  import opened Placement
  import opened Session
  import opened SessionProps

  /** Where the head goes on the next tick. */
  function NextHead(s: State): Pos
    requires |s.snake| >= 1
  {
    Move(s.snake[0], s.dir)
  }

  /** While paused or over there is no game loop: a tick changes nothing. */
  lemma TickIdleWhenStopped(s: State, draw: Draw)
    requires !s.Running() && Ready(s, Tick(draw))
    ensures Step(s, Tick(draw)) == s
  {
    QuietSettle(s, Handle(s, Tick(draw)));
  }

  /** The fields a tick writes are the handler's; effects only touch the power-up state. */
  lemma TickFields(s: State, draw: Draw)
    requires s.Running() && Ready(s, Tick(draw))
    ensures var h := Handle(s, Tick(draw));
      var t := Step(s, Tick(draw));
      && t.snake == h.snake && t.dir == h.dir && t.apple == h.apple
      && t.score == h.score && t.speed == h.speed && t.gameOver == h.gameOver
      && t.potion == h.potion && t.potionStarted == h.potionStarted
      && t.paused == h.paused && t.cooldown == h.cooldown
  {
  }

  /**
   The head moves exactly one cell in the current direction; behind it comes
   the whole old body after an apple, and the old body without its last
   segment otherwise.
   */
  lemma TickMovesSnake(s: State, draw: Draw)
    requires s.Running() && Ready(s, Tick(draw))
    ensures var t := Step(s, Tick(draw));
      var ate := s.apple.value == NextHead(s);
      && |t.snake| >= 1
      && t.snake[0] == NextHead(s)
      && t.snake[1..] == (if ate then s.snake else s.snake[..|s.snake| - 1])
      && t.dir == s.dir
  {
    TickHandlerShape(s, draw);
    TickFields(s, draw);
  }

  /**
   Reaching the apple grows the snake by one, pays 30 points under the
   multiplier and 10 otherwise, lowers the interval by 10 down to 100, and
   places a new apple; any other tick leaves length, score, speed and apple
   alone. This holds whether or not the same tick ends the game.
   */
  lemma TickFood(s: State, draw: Draw)
    requires s.Running() && Ready(s, Tick(draw))
    ensures var t := Step(s, Tick(draw));
      var ate := s.apple.value == NextHead(s);
      && (ate ==>
            && |t.snake| == |s.snake| + 1
            && t.score == s.score + (if s.power.x3Active then 30 else 10)
            && t.speed == (if s.speed - 10 >= 100 then s.speed - 10 else 100)
            && t.apple == PlaceItem(s.board, draw))
      && (!ate ==>
            && |t.snake| == |s.snake|
            && t.score == s.score && t.speed == s.speed && t.apple == s.apple)
  {
    TickHandlerShape(s, draw);
    TickFields(s, draw);
  }

  /**
   The game ends exactly when the new head is off the board or on a segment of
   the new body behind it (after the tail was dropped, or not dropped).
   */
  lemma TickGameOver(s: State, draw: Draw)
    requires s.Running() && Ready(s, Tick(draw))
    ensures var t := Step(s, Tick(draw));
      && |t.snake| >= 1
      && (t.gameOver <==> !OnBoard(s.board, NextHead(s)) || NextHead(s) in t.snake[1..])
  {
    TickHandlerShape(s, draw);
    TickFields(s, draw);
  }

  /** A tick that both eats and crashes keeps the points it just scored. */
  lemma CrashKeepsScore(s: State, draw: Draw)
    requires s.Running() && Ready(s, Tick(draw))
    requires s.apple.value == NextHead(s)
    requires NextHead(s) in s.snake
    ensures var t := Step(s, Tick(draw));
      t.gameOver && t.score > s.score
  {
    TickHandlerShape(s, draw);
    TickFields(s, draw);
    TickMovesSnake(s, draw);
    var t := Step(s, Tick(draw));
    assert t.snake[1..] == s.snake;
  }

  /**
   The fit filter's purpose: the freshly spawned snake survives its first
   tick, whatever apple it meets. The head moves into the play area, ahead of
   the body that trails behind it.
   */
  lemma InitFirstTickSafe(b: Board, control: Control, head: Draw, pick: int, apple: Draw, draw: Draw)
    requires Playable(b) && DrawFits(b, head) && DrawFits(b, apple) && DrawFits(b, draw)
    requires PickDrawn(|FitDirections(b, CellAt(head))|, pick)
    requires Init(b, control, head, pick, apple).Some?
    ensures !Step(Init(b, control, head, pick, apple).value, Tick(draw)).gameOver
  {
    var s := Init(b, control, head, pick, apple).value;
    var h := CellAt(head);
    var d := s.dir;
    InvReady(s, Tick(draw));
    TickMovesSnake(s, draw);
    TickGameOver(s, draw);
    FitDirectionsExact(b, h, d);
    assert InPlayArea(b, Shift(h, d, 1));
    var t := Step(s, Tick(draw));
    forall i | 0 <= i < |s.snake|
      ensures s.snake[i] != NextHead(s)
    {
      assert s.snake[i] == Shift(h, Opposite(d), i);
    }
    assert NextHead(s) !in t.snake[1..];
  }

  /** What a step may change about progress: score and length only grow, the interval only shrinks. */
  predicate Progress(s: State, t: State) {
    && t.score >= s.score
    && t.speed <= s.speed
    && |t.snake| >= |s.snake|
    && (s.gameOver ==> t.gameOver)
    && (s.potionStarted ==> t.potionStarted)
  }

  lemma StepProgress(s: State, e: Event)
    requires Inv(s) && Ready(s, e)
    ensures Progress(s, Step(s, e))
  {
    var h := Handle(s, e);
    match e
    case Tick(draw) =>
      if s.Running() {
        TickHandlerShape(s, draw);
        TickFields(s, draw);
      } else {
        TickIdleWhenStopped(s, draw);
      }
    case _ =>
      InputProgress(s, e);
  }

  /** Events other than the tick leave the snake, the speed and the cycle flag alone. */
  lemma InputProgress(s: State, e: Event)
    requires Ready(s, e) && !e.Tick?
    ensures Progress(s, Step(s, e))
  {
    var h := Handle(s, e);
    assert h.snake == s.snake && h.speed == s.speed && h.potionStarted == s.potionStarted;
  }

  /** Over any run: score never falls, the interval never grows, the snake never shrinks, the end is final. */
  lemma {:induction false} RunProgress(s: State, es: seq<Event>)
    requires Inv(s) && Playable(s.board)
    requires forall i :: 0 <= i < |es| ==> EventFits(s.board, es[i])
    ensures Progress(s, Run(s, es))
    ensures MinSpeed <= Run(s, es).speed
    decreases |es|
  {
    if |es| > 0 {
      InvReady(s, es[0]);
      StepKeepsInv(s, es[0]);
      StepProgress(s, es[0]);
      var next := Step(s, es[0]);
      RunProgress(next, es[1..]);
      assert Run(s, es) == Run(next, es[1..]);
    }
  }

  /** What the end of the game freezes. */
  predicate Frozen(s: State, t: State) {
    && t.gameOver
    && t.snake == s.snake && t.score == s.score && t.speed == s.speed
    && t.apple == s.apple && t.potion == s.potion
    && !t.power.x3Active && !t.power.appearPending && !t.power.disappearPending
  }

  lemma StepAfterGameOver(s: State, e: Event)
    requires Inv(s) && Ready(s, e) && s.gameOver
    ensures Frozen(s, Step(s, e))
  {
    StepKeepsInv(s, e);
    match e
    case Tick(draw) => TickIdleWhenStopped(s, draw);
    case PotionAppear(draw) => PotionAppearRule(s, draw);
    case PotionExpire => PotionExpireRule(s);
    case MultiplierExpire => MultiplierExpireRule(s);
    case _ =>
  }

  /** After the game ends no event moves the snake, changes the score or the speed, or brings back the multiplier. */
  lemma {:induction false} RunAfterGameOver(s: State, es: seq<Event>)
    requires Inv(s) && Playable(s.board) && s.gameOver
    requires forall i :: 0 <= i < |es| ==> EventFits(s.board, es[i])
    ensures Frozen(s, Run(s, es))
    decreases |es|
  {
    if |es| == 0 {
      assert Run(s, es) == s;
    } else {
      InvReady(s, es[0]);
      StepKeepsInv(s, es[0]);
      StepAfterGameOver(s, es[0]);
      var next := Step(s, es[0]);
      RunAfterGameOver(next, es[1..]);
      assert Run(s, es) == Run(next, es[1..]);
    }
  }
}

=== FILE: wrappers.dfy ===
/** An optional value, standing in for the game's `null`-or-object fields. */
module Wrappers {

  datatype Option<+T> = None | Some(value: T)
}
